=== FILE: README.md ===
# FH-WordOA-PostTest in Dafny

This project models the core of the FH-WordOA-PostTest experiment, a
PsychoPy post-test of word–image associations.

At the start the experiment builds a *paradigm*. This is a queue of text
stimuli and an ordered response log:

- an introduction screen;
- then the sampled face and house nouns in shuffled order. Each noun is shown
  over the legend for the participant's parity.

The runner pops one stimulus at a time. A noun waits for D or K. The key is
mapped to a response code by parity and compared with the noun's expected code
from the reference table. The noun's ten-field row is then written to the log.
A follow-up *probe* is put at the front of the queue:

- after a correct answer, the probe asks about the noun's own category;
- after a wrong answer, the category is picked at random from HOUSE and FACE.

A probe question waits for D or K too. Its answer is taken from the probe's
legend and checked against the last noun's three attributes. Five more fields
are appended to that noun's row. When the queue is empty, a run-time row is
added and the log is written to `logs/<id>_posttest_log.csv`. Ids below 10
get a leading zero. Pressing escape ends the run at any iteration.

The configuration merge (`get_settings`) is modelled as well. BASE is one
mutable dictionary. Each call writes the TEST or PRODUCTION layer into it,
then the DEV layer. Only env `"dev"` is accepted, and the call returns BASE
itself.

## Structure

| file | module | form |
|---|---|---|
| `strings.dfy` | `Strings` | The Python `str` operations used by the code: `upper`, `split`, `index`, slices, `str`/`int`. |
| `experiment.dfy` | `Experiment` | The constant tables (defaults, introduction, legends, probe tables, log directory) and lemmas about them. |
| `settings.dfy` | `Settings` | `Dict` is a class with an in-place `Update`. `GetSettings` is a method that mutates the shared BASE dictionary. |
| `stimulus.dfy` | `Stimulus` | Pure logic as values: descriptors, scoring, probe selection and legend parsing, the ordered log, the initial queue, and one runner step as a transition on (queue, log). |
| `paradigm.dfy` | `Paradigms` | The `Paradigm` class. Its fields are `stimuli` and `log`, and its methods mutate them. The queue operations (`AddStimulus`, `AddStimuli`, `InsertStimulus`, `Insert`, `GetProbe`) state the new queue directly. `PlayNext`, `PlayAll` and `RunEvent` are proved to perform the transitions `Next`, `RunAll` and `RespondTo` defined in `Stimulus`. |

Randomness and the outside world are parameters:

- **Random choices.** `random.randint(0, 1)` is a `coin < 2`. `random.choice`
  over a three-entry table is a `choice < 3`. `random.shuffle` is any
  `shuffled` sequence that is a permutation of the sampled nouns.
- **Per-iteration input.** Each `Input` holds whether escape was seen, the key
  pressed, its latency, and the clock reading.
- **Reference table.** The spreadsheet is a `map` from noun to row. A noun
  with no row is the error `LookupMiss`, where pandas would raise `IndexError`.
- **Exceptions and `core.quit()`.** Both are `Outcome` values:
  - `Halted(error)` stands for an exception, or for the quit when
    `get_probe` finds no table;
  - `Finished(path)` stands for the quit after writing the log;
  - `Escaped` stands for the quit on escape.

## Model

| member | source | states |
|---|---|---|
| `Strings.Upper` | stimulus.py:313-318 | `str.upper` keeps the length, leaves no lower-case letter, and changes exactly the lower-case letters to their capitals. |
| `Strings.Split` | stimulus.py:406 | `split(",")` yields at least one piece, and no piece contains the separator. |
| `Strings.JoinSplit` | stimulus.py:406 | Joining the pieces of `split` with the separator gives the original text back. |
| `Strings.SplitAtFirstSep` | stimulus.py:406-408 | A separator after a separator-free head splits off exactly that head as `split[0]`. |
| `Strings.IndexOf` | stimulus.py:410-411 | `index('=')` is the first position of '=', and it is absent exactly when '=' does not occur. |
| `Strings.IndexOfPrefix` | stimulus.py:410-411 | Text after the first '=' does not change what `index` returns. |
| `Strings.ParseNatToString` | stimulus.py:153-154 | `int(str(n)) == n` for every natural n. |
| `Experiment.ProbeTableSizes` | experiment.py:57-64 | Each of the four probe tables has three entries, each with a one-string legend. |
| `Experiment.OddEvenSameQuestions` | experiment.py:57-64 | The odd and even tables of a category ask the same three questions in the same order. |
| `Experiment.HouseLegendsOdd` | experiment.py:41-43 | Each odd house legend reads `'D' = <first answer>, 'K' = <second answer>`. |
| `Experiment.HouseLegendsEven` | experiment.py:49-51 | Each even house legend carries the same answers with D and K swapped. |
| `Experiment.FaceLegendsOdd` | experiment.py:44-46 | Each odd face legend reads `'D' = <first answer>, 'K' = <second answer>`. |
| `Experiment.FaceLegendsEven` | experiment.py:52-54 | Each even face legend carries the same answers with D and K swapped. |
| `Experiment.AnswersCommaFree` | experiment.py:41-54 | No probe answer contains a comma, so splitting a legend at commas gives exactly two parts. |
| `Experiment.NounLegendsMirror` | experiment.py:29-30 | The odd noun legend is `'D' = BUILDING, 'K' = FACE`; the even one swaps the categories but reads " BUILDING" with a doubled space. |
| `Settings.Dict.Update` | settings.py:26 | `dict.update`: the keys are the union, the keys of `other` take its values, and every other key keeps its value. |
| `Settings.GetSettings` | settings.py:24-33 | Details below. |
| `Settings.StimulusModuleSettings` | stimulus.py:14 | The stimulus module's own call, with env "production", is always rejected, yet BASE still receives the PRODUCTION layer. |
| `Settings.SharedAcrossCalls` | settings.py:25-33 | Two accepted calls return the same object. After a test-mode call followed by a production-mode call, the first result shows `test` false and `exp_name` still "TestExp". |
| `Settings.NonDevWritesModeLayerOnly` | settings.py:26-31 | For any other environment, the dictionary ends as BASE plus the mode layer only. |
| `Settings.DevKeysPresent` | settings.py:16-29 | After an accepted call, every DEV key holds its DEV value; for example `window_dimensions` is "full_screen". |
| `Settings.TestFlagAndLoggingLevel` | settings.py:12-26 | `test` equals the argument, and `logging_level` is DEBUG when testing and INFO otherwise. |
| `Settings.UnnamedKeysKept` | settings.py:25-29 | Keys named by neither the mode layer nor DEV keep their previous values. |
| `Settings.ExpNamePersists` | settings.py:4-26 | A production-mode call from the defaults keeps "FH_WordOA_PostTest"; after a test-mode call, `exp_name` stays "TestExp" through any later production-mode call. |
| `Stimulus.StimType` | stimulus.py:212 | `stim_type` is 1 exactly for the introduction, negative exactly for words, and 0 exactly for probes. |
| `Stimulus.DefaultsAreKeyGated` | stimulus.py:233-239 | A stimulus with the default duration 0.0 and the default keys d/k neither waits nor flips through: it waits for one of those keys. |
| `Stimulus.AnswerCodesMirror` | stimulus.py:329-337 | Details below. |
| `Stimulus.ParityAlternates` | run.py:17 | Consecutive participant ids alternate parity, and with it the meaning of D and K. |
| `Stimulus.Put` | stimulus.py:361-362 | Assigning into the ordered log sets the row. A new key goes last, an existing key keeps its position, and the log stays duplicate-free. |
| `Stimulus.Last` | stimulus.py:304 | `next(reversed(keys))` is the most recently inserted key, and there is none exactly when the log is empty. |
| `Stimulus.Rows` | stimulus.py:162-164 | The rows written to the CSV are those of the log, in key order. |
| `Stimulus.PutRows` | stimulus.py:148-165 | A new key's row is appended after all earlier rows. Re-assigning an existing key changes only that key's row, in place. |
| `Stimulus.RuntimeRecord` | stimulus.py:148-149 | The run-time row has one cell per column (15): the label first, the elapsed time last, and 13 empty strings between them. |
| `Stimulus.ScoreWord` | stimulus.py:327-362 | Details below. |
| `Stimulus.ScoreProbe` | stimulus.py:302-326 | Details below. |
| `Stimulus.ProbeTable` | stimulus.py:392-402 | A table exists exactly for HOUSE and FACE, and it has three entries. |
| `Stimulus.AnswerAfterPrefix` | stimulus.py:410-411 | `part[part.index('='):][2:]` applied to `<prefix>= <x>` is exactly x. |
| `Stimulus.LegendSplits` | stimulus.py:406-408 | A legend with comma-free answers splits into its D part and its K part. |
| `Stimulus.ParseLegendRoundTrip` | stimulus.py:405-416 | Parsing a legend built from answers d and k yields the answer dictionary `{q, d, k}`: the parser inverts the legend format. |
| `Stimulus.ProbeStimulusAnswers` | stimulus.py:382-428 | Details below. |
| `Stimulus.ProbeParityMirror` | stimulus.py:392-416 | For the same category and choice, both parities get the same question with the D and K answers exchanged. |
| `Stimulus.InitialSequenceShape` | stimulus.py:448-463 | Details below. |
| `Stimulus.InitialSequenceIsPermutation` | stimulus.py:443-446 | The queued word keys are a permutation of the sampled face nouns plus house nouns. |
| `Stimulus.PaddedUidRoundTrip` | stimulus.py:152-154 | The padded id is all digits and reads back as the id. It is two characters for ids below 100. It starts with '0' exactly for ids below 10. |
| `Stimulus.WordStepGoesOn` | stimulus.py:327-364 | A word response continues exactly when the word has a row, the key is d or k, and (if the answer was correct) the word's upper-cased category has a probe table. |
| `Stimulus.WordStep` | stimulus.py:327-364 | Details below. |
| `Stimulus.ProbeStep` | stimulus.py:302-326 | A probe response continues exactly when `ScoreProbe` scores it; otherwise it halts with that error and the queue and log unchanged. It never changes the queue or the key order. When it continues, it appends exactly the five fields `ScoreProbe` computes to the last noun's row, and changes no other row. |
| `Stimulus.IntroStep` | stimulus.py:294-367 | Responding to the introduction changes nothing. |
| `Stimulus.NextPopsFront` | stimulus.py:138-145 | With stimuli pending, the run does not finish. The front stimulus is removed, and only a continuing word response adds a probe in its place. |
| `Stimulus.NextFinishes` | stimulus.py:146-165 | Details below. |
| `Stimulus.EscapeAtStart` | stimulus.py:118-126 | Escape at the loop check ends the run with the queue and the log untouched. |
| `Stimulus.FirstWordWrong` | stimulus.py:138-145 | Details below. |
| `Paradigms.FirstUnshaped` | stimulus.py:85-86 | The position where `addStimuli` stops: every earlier candidate is a tuple or list, and the one there is not. |
| `Paradigms.Paradigm.constructor` | stimulus.py:56-58 | A new paradigm has an empty queue, an empty log and the given escape key. |
| `Paradigms.Paradigm.AddStimulus` | stimulus.py:60-76 | Details below. |
| `Paradigms.Paradigm.AddStimuli` | stimulus.py:78-86 | Details below. |
| `Paradigms.Paradigm.InsertStimulus` | stimulus.py:88-104 | A tuple or list descriptor is accepted and put first; anything else is rejected with nothing changed. |
| `Paradigms.Paradigm.PlayNext` | stimulus.py:128-167 | The new (queue, log) and the outcome are exactly `Next` of the old ones, and the log stays well formed. |
| `Paradigms.Paradigm.PlayAll` | stimulus.py:106-126 | Playing until escape, the end of the run, or the end of input gives exactly `RunAll` of the starting state. |
| `Paradigms.Insert` | stimulus.py:469-477 | `insert` puts the descriptor at the front of the paradigm's queue and leaves the log alone. |
| `Paradigms.GetProbe` | stimulus.py:382-428 | Details below. |
| `Paradigms.RunEvent` | stimulus.py:294-367 | The paradigm's new (queue, log) and the outcome are exactly `RespondTo` of the old ones. |
| `Paradigms.BuildStimuli` | stimulus.py:448-463 | The loop builds exactly `InitialSequence`: the introduction, then one word stimulus per shuffled noun, in order. |
| `Paradigms.ConstructPar` | stimulus.py:431-466 | Details below. |

Rows whose third column says "Details below" state the following.

**`Settings.GetSettings`** (settings.py:24-33)
- `test` defaults to false.
- The mode layer is always written into BASE; DEV is written only for "dev".
- The call is accepted exactly when env is "dev", and then it returns BASE itself.
- Otherwise the error names env, and BASE is still modified.

**`Stimulus.AnswerCodesMirror`** (stimulus.py:329-337)
- The code map is defined exactly on d and k.
- Odd participants map d→f and k→e.
- The even map is the mirror image of the odd one.

**`Stimulus.ScoreWord`** (stimulus.py:327-362)
- The response is scored exactly when the noun has a row and the key is d or k. A missing noun is `LookupMiss`; a key outside d and k is `KeyMissing`.
- The row has 10 fields, in column order: the noun, its upper-cased category, its three attributes, the key, the response code the key maps to for this parity, the correctness flag, the latency, and the probe type.
- The flag is 1 exactly when the noun's expected code equals the mapped code.
- After a correct answer, the probe type is the noun's own upper-cased category. After a wrong one, it is the category the coin picks: HOUSE for 0, FACE for 1.

**`Stimulus.ScoreProbe`** (stimulus.py:302-326)
- An empty log is an error.
- The answer is scored exactly when the last noun has a row and the key names an answer.
- The five fields are the question, the key, the upper-cased answer, a flag and the latency. The flag is 1 exactly when the answer is one of the noun's three upper-cased attributes.

**`Stimulus.ProbeStimulusAnswers`** (stimulus.py:382-428)
- A probe is produced exactly for HOUSE and FACE.
- The probe has stim_type 0 and waits for a key.
- It shows the chosen table question.
- Its D and K answers are the legend's: in odd order for odd participants, swapped for even ones.

**`Stimulus.InitialSequenceShape`** (stimulus.py:448-463)
- The initial queue has 1 + n stimuli.
- The introduction comes first, with stim_type 1.
- Then come the n words in shuffled order, each with stim_type -1.
- Every stimulus waits for a key.

**`Stimulus.WordStep`** (stimulus.py:327-364)
- A word response continues when the noun has a row, the key is d or k, and (after a correct answer) the noun's category has a probe table.
- It then logs `ScoreWord`'s record as the word's row, by one ordered-log assignment (`Put`). That row has 10 fields and starts with the word. Every other row is unchanged, and a word new to the log becomes its last key, which the next probe is scored against.
- The row's probe type is HOUSE or FACE, and it is the word's own category when the answer was correct.
- The probe put in front is exactly `ProbeStimulus` of the logged probe type, this parity and the choice. That is a key-gated probe with stim_type 0, placed before the unchanged rest of the queue.

**`Stimulus.NextFinishes`** (stimulus.py:146-165)
- With the queue empty, the run finishes with path `logs/<padded id>_posttest_log.csv`.
- The run-time row is written under "exp_runtime".
- If "exp_runtime" is a new key, its row is appended last.

**`Stimulus.FirstWordWrong`** (stimulus.py:138-145)
- This lemma follows an odd participant from the initial queue: a key on the introduction, then a wrong first answer.
- The first word's row is logged with flag 0 and the coin's category.
- That category's odd probe, with the odd answer order, is next in the queue, before the remaining words.

**`Paradigms.Paradigm.AddStimulus`** (stimulus.py:60-76)
- A tuple or list descriptor is accepted and appended last.
- Anything else is rejected, and nothing changes.

**`Paradigms.Paradigm.AddStimuli`** (stimulus.py:78-86)
- The descriptors before the first rejected candidate are appended, in order.
- The call succeeds exactly when every candidate is a tuple or list.

**`Paradigms.GetProbe`** (stimulus.py:382-428)
- For a category with a table, the chosen probe descriptor is inserted at the front and the run goes on.
- Otherwise the run halts and the queue is unchanged.

**`Paradigms.ConstructPar`** (stimulus.py:431-466)
- The new paradigm has escape key "escape".
- Its queue is exactly the initial sequence of the shuffled nouns, with length 1 + faces + houses.
- The queued word keys are a permutation of the sampled nouns, and the log is empty.

## Left out

- The PsychoPy window, drawing, `window.flip`, text heights as drawn, and the window dimensions setting are left out. These are display effects with no logic to verify.
- Keyboard polling (`event.getKeys`, `event.waitKeys`) and clocks are left out. The escape flag, the key pressed, its latency and the elapsed run time are parameters of each step. The key is assumed to be one of the stimulus's keys, as `waitKeys(keyList=...)` guarantees; the model still handles any other key as an error.
- `random.shuffle`, `random.randint` and `random.choice` are parameters, and `DataFrame.sample(20)` is left out. The sampled nouns are inputs, and nothing is proved about the sample sizes of 20.
- Reading the spreadsheet and writing the CSV (`pd.read_excel`, `to_csv`, `os.makedirs`) are left out. The table is a map from noun to its first matching row, and the written file is the sequence of log rows (`Rows`) together with the path.
- `_init_stimulus` and the `Text` stimulus class are a `Descriptor` value. `Timed` and `Immediate` stimuli are popped without a response, as `Text.show` does. The wait itself is not modelled.
- The `Pause` stimulus and the `verbose` printing are not modelled. No core path creates a `Pause`.
- The `event == "exit"` branch of `run_event` is not modelled. Its event is always "continue", because no code path sets "exit".
- `Strings.Upper` upper-cases ASCII letters only. Python's `str.upper` also maps non-ASCII letters.
- `Stimulus.PaddedUid` takes the participant as an integer. The settings dictionary has no "participant" key, so stimulus.py:152 would raise `KeyError`. The model takes the id as an input instead of modelling that failure. A non-padded id is rendered as `str(int(id))`, so leading zeros or spaces in a raw id string are not kept.
- The module-global `par` is not modelled as a separate object. `run_event`, `get_probe`/`insert` and the finishing branch of `playNext` write to the global `par` (stimulus.py:148, 295-326, 361, 476-477), while `playNext` pops from `self` (stimulus.py:139). The model passes the paradigm being played to all of them. The two agree only when the paradigm played is the one `construct_par` stored in the global; a run on any other paradigm, where pops and log writes go to different objects, is not captured.
- `Settings.Dict` is a map, so the insertion order of dictionary keys is not modelled.
- Logging levels are the numeric constants of the logging library (DEBUG 10, INFO 20). The library itself is not part of this model.
- The stimulus module's own `get_settings(env="production")` call always raises, so the module as written cannot be imported. `Settings.StimulusModuleSettings` proves this outcome. The rest of the model takes the parity and the paradigm as parameters rather than depending on that call.

=== FILE: experiment.dfy ===
/**
 * The experiment's constant tables: response keys and timing defaults, the
 * introduction text, the noun key legends shown under each word, and the
 * three follow-up probe questions per image category with their answer
 * legends for odd- and even-numbered participants.
 */
module Experiment {

  /** A display duration of zero is falsy, so stimuli wait for a key instead. */
  const DefaultDuration: real := 0.0
  const DefaultKeys: seq<string> := ["d", "k"]
  const DefaultTextHeight: real := 0.1

  const Intro: string :=
    "YOU WILL NOW VIEW ANOTHER SERIES OF WORDS.  THESE ARE THE SAME WORDS YOU WERE ASKED TO \n" +
    "REMEMBER DURING THE PREVIOUS SEGMENTS.\n" +
    "WHEN YOU SEE THE WORD, YOU WILL AGAIN BE ASKED\n" +
    "TO INDICATE WHETHER THIS WORD WAS ASSOCIATED WITH\n" +
    "OF A FACE OR A PICTURE OF A HOUSE. AFTER SOME\n" +
    "RESPONSES YOU MAY BE ASKED A FOLLOW UP QUESTION\n" +
    "ABOUT THE DETAILS YOU REMEMBER ABOUT THE ASSOCIATED\n" +
    "IMAGE. IF YOU DO NOT KNOW THE ANSWER, PLEASE MAKE\n" +
    "YOUR BEST GUESS. YOU WILL HAVE 6 SECONDS TO RESPOND\n" +
    "SO PLEASE TAKE YOUR TIME AND BE AS ACCURATE AS \n" +
    "POSSIBLE. \n" +
    "\n" +
    "PLEASE PRESS D or K WHEN YOU ARE READY TO BEGIN."
  const IntroTextHeight: real := 0.05

  /** The category legend shown under each noun. */
  const NounOddKey: string := "'D' = BUILDING, 'K' = FACE"
  const NounEvenKey: string := "'D' = FACE, 'K' =  BUILDING"

  const HouseProbe1: string := "IS THIS A RESIDENTIAL OR COMMERCIAL BUILDING?"
  const HouseProbe2: string := "IS THIS A ONE STORY OR MULTISTORY BUILDING?"
  const HouseProbe3: string := "IS THIS A LIGHT COLORED OR A DARK COLORED BUILDING?"
  const FaceProbe1: string := "IS THIS A MALE FACE OR A FEMALE FACE?"
  const FaceProbe2: string := "IS THIS A YOUNGER PERSON OR AN OLDER PERSON?"
  const FaceProbe3: string := "IS THIS PERSON WHITE OR NOT WHITE?"

  /** Each answer legend is a one-element list holding the legend text. */
  const HouseKeyOdd1: seq<string> := ["'D' = RESIDENTIAL, 'K' = COMMERCIAL"]
  const HouseKeyOdd2: seq<string> := ["'D' = ONE STORY, 'K' = MULTISTORY"]
  const HouseKeyOdd3: seq<string> := ["'D' = LIGHT, 'K' = DARK"]
  const FaceKeyOdd1: seq<string> := ["'D' = MALE, 'K' = FEMALE"]
  const FaceKeyOdd2: seq<string> := ["'D' = YOUNGER, 'K' = OLDER"]
  const FaceKeyOdd3: seq<string> := ["'D' = WHITE, 'K' = NOT WHITE"]

  const HouseKeyEven1: seq<string> := ["'D' = COMMERCIAL, 'K' = RESIDENTIAL"]
  const HouseKeyEven2: seq<string> := ["'D' = MULTISTORY, 'K' = ONE STORY"]
  const HouseKeyEven3: seq<string> := ["'D' = DARK, 'K' = LIGHT"]
  const FaceKeyEven1: seq<string> := ["'D' = FEMALE, 'K' = MALE"]
  const FaceKeyEven2: seq<string> := ["'D' = OLDER, 'K' = YOUNGER"]
  const FaceKeyEven3: seq<string> := ["'D' = NOT WHITE, 'K' = WHITE"]

  /** A probe question paired with its answer legend. */
  datatype ProbeEntry = ProbeEntry(question: string, legend: seq<string>)

  const HouseListOdd: seq<ProbeEntry> :=
    [ProbeEntry(HouseProbe1, HouseKeyOdd1), ProbeEntry(HouseProbe2, HouseKeyOdd2), ProbeEntry(HouseProbe3, HouseKeyOdd3)]
  const HouseListEven: seq<ProbeEntry> :=
    [ProbeEntry(HouseProbe1, HouseKeyEven1), ProbeEntry(HouseProbe2, HouseKeyEven2), ProbeEntry(HouseProbe3, HouseKeyEven3)]
  const FaceListOdd: seq<ProbeEntry> :=
    [ProbeEntry(FaceProbe1, FaceKeyOdd1), ProbeEntry(FaceProbe2, FaceKeyOdd2), ProbeEntry(FaceProbe3, FaceKeyOdd3)]
  const FaceListEven: seq<ProbeEntry> :=
    [ProbeEntry(FaceProbe1, FaceKeyEven1), ProbeEntry(FaceProbe2, FaceKeyEven2), ProbeEntry(FaceProbe3, FaceKeyEven3)]

  /** Directory the log file is written to. */
  const LogDir: string := "logs"

  /** The shape every legend has: `'D' = X, 'K' = Y`. */
  function Legend(d: string, k: string): string {
    "'D' = " + d + ", 'K' = " + k
  }

  /** The (D, K) answers of the odd-parity legends, in table order. */
  const HouseAnswers: seq<(string, string)> :=
    [("RESIDENTIAL", "COMMERCIAL"), ("ONE STORY", "MULTISTORY"), ("LIGHT", "DARK")]
  const FaceAnswers: seq<(string, string)> :=
    [("MALE", "FEMALE"), ("YOUNGER", "OLDER"), ("WHITE", "NOT WHITE")]

  /** The answers as an odd-numbered participant sees them: D first. */
  predicate OddLegend(e: ProbeEntry, answers: (string, string)) {
    e.legend == [Legend(answers.0, answers.1)]
  }

  /** The answers as an even-numbered participant sees them: D and K swapped. */
  predicate EvenLegend(e: ProbeEntry, answers: (string, string)) {
    e.legend == [Legend(answers.1, answers.0)]
  }

  /** Each of the four probe tables holds exactly three probes, each with a one-string legend. */
  lemma ProbeTableSizes()
    ensures |HouseListOdd| == |HouseListEven| == |FaceListOdd| == |FaceListEven| == 3
    ensures forall i :: 0 <= i < 3 ==> |HouseListOdd[i].legend| == 1 && |HouseListEven[i].legend| == 1
    ensures forall i :: 0 <= i < 3 ==> |FaceListOdd[i].legend| == 1 && |FaceListEven[i].legend| == 1
  {
  }

  /** The odd and even table of a category ask the same questions in the same order. */
  lemma OddEvenSameQuestions()
    ensures forall i :: 0 <= i < 3 ==> HouseListOdd[i].question == HouseListEven[i].question
    ensures forall i :: 0 <= i < 3 ==> FaceListOdd[i].question == FaceListEven[i].question
  {
  }

  /** Every house legend for odd-numbered participants is a one-element list in legend form. */
  lemma HouseLegendsOdd()
    ensures |HouseAnswers| == 3
    ensures forall i :: 0 <= i < 3 ==> OddLegend(HouseListOdd[i], HouseAnswers[i])
  {
    assert HouseListOdd[0].legend[0] == Legend(HouseAnswers[0].0, HouseAnswers[0].1);
    assert HouseListOdd[1].legend[0] == Legend(HouseAnswers[1].0, HouseAnswers[1].1);
    assert HouseListOdd[2].legend[0] == Legend(HouseAnswers[2].0, HouseAnswers[2].1);
  }

  /** Every house legend for even-numbered participants is the odd one with the D and K answers swapped. */
  lemma HouseLegendsEven()
    ensures |HouseAnswers| == 3
    ensures forall i :: 0 <= i < 3 ==> EvenLegend(HouseListEven[i], HouseAnswers[i])
  {
    assert HouseListEven[0].legend[0] == Legend(HouseAnswers[0].1, HouseAnswers[0].0);
    assert HouseListEven[1].legend[0] == Legend(HouseAnswers[1].1, HouseAnswers[1].0);
    assert HouseListEven[2].legend[0] == Legend(HouseAnswers[2].1, HouseAnswers[2].0);
  }

  /** Every face legend for odd-numbered participants is a one-element list in legend form. */
  lemma FaceLegendsOdd()
    ensures |FaceAnswers| == 3
    ensures forall i :: 0 <= i < 3 ==> OddLegend(FaceListOdd[i], FaceAnswers[i])
  {
    assert FaceListOdd[0].legend[0] == Legend(FaceAnswers[0].0, FaceAnswers[0].1);
    assert FaceListOdd[1].legend[0] == Legend(FaceAnswers[1].0, FaceAnswers[1].1);
    assert FaceListOdd[2].legend[0] == Legend(FaceAnswers[2].0, FaceAnswers[2].1);
  }

  /** Every face legend for even-numbered participants is the odd one with the D and K answers swapped. */
  lemma FaceLegendsEven()
    ensures |FaceAnswers| == 3
    ensures forall i :: 0 <= i < 3 ==> EvenLegend(FaceListEven[i], FaceAnswers[i])
  {
    assert FaceListEven[0].legend[0] == Legend(FaceAnswers[0].1, FaceAnswers[0].0);
    assert FaceListEven[1].legend[0] == Legend(FaceAnswers[1].1, FaceAnswers[1].0);
    assert FaceListEven[2].legend[0] == Legend(FaceAnswers[2].1, FaceAnswers[2].0);
  }

  /** No answer contains the comma the legend parser splits on. */
  lemma AnswersCommaFree()
    ensures forall i :: 0 <= i < 3 ==> ',' !in HouseAnswers[i].0 && ',' !in HouseAnswers[i].1
    ensures forall i :: 0 <= i < 3 ==> ',' !in FaceAnswers[i].0 && ',' !in FaceAnswers[i].1
  {
  }

  /**
   * The noun legends are mirror images: odd gives D = BUILDING, K = FACE and
   * even gives D = FACE, K = BUILDING, the latter with an extra space before
   * BUILDING.
   */
  lemma NounLegendsMirror()
    ensures NounOddKey == Legend("BUILDING", "FACE")
    ensures NounEvenKey == Legend("FACE", " BUILDING")
  {
  }
}

=== FILE: paradigm.dfy ===
/**
 * The study paradigm as the object the experiment mutates: its queue of
 * pending stimuli and its ordered response log are fields that `addStimulus`,
 * `insertStimulus`, `playNext` and the response event update in place. The
 * queue operations state the new queue directly; `PlayNext`, `PlayAll` and
 * `RunEvent` are specified by the transitions `Next`, `RunAll` and
 * `RespondTo` on (queue, log) defined in the Stimulus module.
 */
module Paradigms {
  import opened Strings
  import opened Stimulus

  /** Every candidate is a tuple or list descriptor. */
  predicate AllShaped(cs: seq<Candidate>) {
    forall i :: 0 <= i < |cs| ==> cs[i].Shaped?
  }

  /** The position of the first candidate that is not a tuple or list, or the length when there is none. */
  function FirstUnshaped(cs: seq<Candidate>): (r: nat)
    ensures r <= |cs|
    ensures AllShaped(cs[..r])
    ensures r < |cs| ==> cs[r].Unshaped?
  {
    if |cs| == 0 then 0
    else if cs[0].Unshaped? then 0
    else
      var r := FirstUnshaped(cs[1..]);
      assert cs[..r + 1] == [cs[0]] + cs[1..][..r];
      r + 1
  }

  /** The descriptors of candidates that are all shaped. */
  function Descriptors(cs: seq<Candidate>): (ds: seq<Descriptor>)
    requires AllShaped(cs)
    ensures |ds| == |cs| && forall i :: 0 <= i < |cs| ==> ds[i] == cs[i].descriptor
  {
    seq(|cs|, i requires 0 <= i < |cs| => cs[i].descriptor)
  }

  class Paradigm {
    var stimuli: seq<Descriptor>
    var log: Log
    /**
     * The key that ends `playAll`. Polling the keyboard for it is outside the
     * model: each step's `Input.escape` says whether it was seen.
     */
    const escapeKey: string

    ghost predicate Valid()
      reads this
    {
      log.WellFormed()
    }

    /** The queue and the log as one value. */
    function State(): Run
      reads this
    {
      Run(stimuli, log)
    }

    constructor (escapeKey: string)
      ensures Valid() && stimuli == [] && log == EmptyLogData && this.escapeKey == escapeKey
    {
      stimuli := [];
      log := EmptyLogData;
      this.escapeKey := escapeKey;
    }

    /** `addStimulus`: a tuple or list descriptor goes last; anything else is rejected and nothing changes. */
    method AddStimulus(c: Candidate) returns (ok: bool)
      modifies this
      ensures ok <==> c.Shaped?
      ensures stimuli == if ok then old(stimuli) + [c.descriptor] else old(stimuli)
      ensures log == old(log)
    {
      ok := c.Shaped?;
      if ok {
        stimuli := stimuli + [c.descriptor];
      }
    }

    /**
     * `addStimuli`: adds the candidates in order; the first one that is not
     * a tuple or list is rejected and ends the call, the ones before it stay
     * added.
     */
    method AddStimuli(cs: seq<Candidate>) returns (ok: bool)
      modifies this
      ensures ok <==> AllShaped(cs)
      ensures stimuli == old(stimuli) + Descriptors(cs[..FirstUnshaped(cs)])
      ensures log == old(log)
    {
      var i := 0;
      while i < |cs|
        invariant 0 <= i <= |cs|
        invariant AllShaped(cs[..i])
        invariant stimuli == old(stimuli) + Descriptors(cs[..i])
        invariant log == old(log)
      {
        ok := AddStimulus(cs[i]);
        if !ok {
          assert FirstUnshaped(cs) == i;
          return;
        }
        assert cs[..i + 1] == cs[..i] + [cs[i]];
        i := i + 1;
      }
      ok := true;
      assert cs[..i] == cs;
    }

    /** `insertStimulus`: a tuple or list descriptor goes first; anything else is rejected and nothing changes. */
    method InsertStimulus(c: Candidate) returns (ok: bool)
      modifies this
      ensures ok <==> c.Shaped?
      ensures stimuli == if ok then [c.descriptor] + old(stimuli) else old(stimuli)
      ensures log == old(log)
    {
      ok := c.Shaped?;
      if ok {
        stimuli := [c.descriptor] + stimuli;
      }
    }

    /**
     * `playNext`: pops the front descriptor and shows it, running the
     * response event when it waits for a key; on an empty queue writes the
     * run-time row and finishes.
     */
    method PlayNext(isOdd: bool, table: Table, participant: int, input: Input) returns (o: Outcome)
      requires Valid() && input.Valid()
      modifies this
      ensures Valid()
      ensures Step(State(), o) == Next(old(State()), isOdd, table, participant, input)
    {
      if |stimuli| > 0 {
        var d := stimuli[0];
        stimuli := stimuli[1..];
        if CompletionOf(d) == KeyGated {
          o := RunEvent(this, d, isOdd, table, input);
        } else {
          o := Continue;
        }
      } else {
        log := Put(log, "exp_runtime", RuntimeRecord(input.elapsed));
        o := Finished(LogPath(participant));
      }
    }

    /** `playAll`: until escape is seen or the run ends, play the next stimulus. */
    method PlayAll(isOdd: bool, table: Table, participant: int, inputs: seq<Input>) returns (o: Outcome)
      requires Valid() && AllValid(inputs)
      modifies this
      ensures Valid()
      ensures Step(State(), o) == RunAll(old(State()), isOdd, table, participant, inputs)
    {
      o := Continue;
      var i := 0;
      while i < |inputs| && o.Continue?
        invariant 0 <= i <= |inputs| && Valid()
        invariant RunAll(old(State()), isOdd, table, participant, inputs) ==
                  if o.Continue? then RunAll(State(), isOdd, table, participant, inputs[i..]) else Step(State(), o)
      {
        assert inputs[i..][0] == inputs[i] && inputs[i..][1..] == inputs[i + 1..];
        if inputs[i].escape {
          o := Escaped;
        } else {
          o := PlayNext(isOdd, table, participant, inputs[i]);
        }
        i := i + 1;
      }
    }
  }

  /** `insert`: puts a descriptor at the front of the paradigm's queue. */
  method Insert(par: Paradigm, c: Candidate) returns (ok: bool)
    modifies par
    ensures ok <==> c.Shaped?
    ensures par.stimuli == if ok then [c.descriptor] + old(par.stimuli) else old(par.stimuli)
    ensures par.log == old(par.log)
  {
    ok := par.InsertStimulus(c);
  }

  /**
   * `get_probe`: builds the chosen probe of the category's table for this
   * parity and inserts it at the front; a category without a table quits.
   */
  method GetProbe(par: Paradigm, probeType: string, isOdd: bool, choice: nat) returns (o: Outcome)
    requires choice < 3
    modifies par
    ensures ProbeStimulus(probeType, isOdd, choice).Ok? ==>
      o == Continue && par.stimuli == [ProbeStimulus(probeType, isOdd, choice).value] + old(par.stimuli)
    ensures ProbeStimulus(probeType, isOdd, choice).Err? ==>
      o == Halted(ProbeStimulus(probeType, isOdd, choice).error) && par.stimuli == old(par.stimuli)
    ensures par.log == old(par.log)
  {
    var probe := ProbeStimulus(probeType, isOdd, choice);
    match probe
    case Err(e) =>
      o := Halted(e);
    case Ok(p) =>
      var _ := Insert(par, Shaped(p));
      o := Continue;
  }

  /**
   * `run_event`: scores the response to `d` and updates the paradigm's log,
   * and after a word its queue, as `RespondTo` says.
   */
  method RunEvent(par: Paradigm, d: Descriptor, isOdd: bool, table: Table, input: Input) returns (o: Outcome)
    requires par.Valid() && input.Valid()
    modifies par
    ensures par.Valid()
    ensures Step(par.State(), o) == RespondTo(old(par.State()), d, isOdd, table, input)
  {
    match d.kind
    case Intro() =>
      o := Continue;
    case Probe(details) =>
      var scored := ScoreProbe(table, par.log, details, input.key, input.rt);
      if scored.Err? {
        o := Halted(scored.error);
        return;
      }
      var noun := Last(par.log).value;
      var row := par.log.rows[noun];
      par.log := Put(par.log, noun, row + scored.value);
      o := Continue;
    case Word() =>
      var scored := ScoreWord(table, d.wordKey, isOdd, input.key, input.rt, input.coin);
      if scored.Err? {
        o := Halted(scored.error);
        return;
      }
      par.log := Put(par.log, d.wordKey, scored.value.record);
      o := GetProbe(par, scored.value.probeType, isOdd, input.choice);
  }

  /** Builds the stimulus list of `construct_par`: the introduction, then one word stimulus per noun. */
  method BuildStimuli(isOdd: bool, words: seq<string>) returns (stimuli: seq<Descriptor>)
    ensures stimuli == InitialSequence(isOdd, words)
  {
    stimuli := [IntroDescriptor];
    for i := 0 to |words|
      invariant stimuli == InitialSequence(isOdd, words[..i])
    {
      stimuli := stimuli + [WordDescriptor(words[i], isOdd)];
      assert words[..i + 1][i] == words[i];
    }
    assert words[..|words|] == words;
  }

  /**
   * `construct_par`: a new paradigm (escape key "escape") whose queue is the
   * introduction followed by the shuffled face and house nouns.
   */
  method ConstructPar(isOdd: bool, faceWords: seq<string>, houseWords: seq<string>, shuffled: seq<string>)
    returns (par: Paradigm)
    requires multiset(shuffled) == multiset(faceWords + houseWords)
    ensures fresh(par) && par.Valid() && par.escapeKey == "escape"
    ensures par.stimuli == InitialSequence(isOdd, shuffled) && par.log == EmptyLogData
    ensures |par.stimuli| == 1 + |faceWords| + |houseWords|
    ensures multiset(WordKeys(par.stimuli[1..])) == multiset(faceWords) + multiset(houseWords)
  {
    par := new Paradigm("escape");
    var stimuli := BuildStimuli(isOdd, shuffled);
    var candidates := seq(|stimuli|, i requires 0 <= i < |stimuli| => Shaped(stimuli[i]));
    var ok := par.AddStimuli(candidates);
    assert FirstUnshaped(candidates) == |candidates|;
    assert candidates[..|candidates|] == candidates;
    assert Descriptors(candidates) == stimuli;
    InitialSequenceShape(isOdd, shuffled);
    InitialSequenceIsPermutation(isOdd, faceWords, houseWords, shuffled);
    assert |shuffled| == |multiset(shuffled)| == |faceWords + houseWords|;
  }
}

=== FILE: settings.dfy ===
/**
 * The configuration merge. The module-level BASE dictionary is one mutable
 * object: `GetSettings` layers the TEST or PRODUCTION dictionary onto it,
 * then the DEV dictionary, and returns BASE itself, so every caller shares
 * the same dictionary and sees what later calls write into it.
 */
module Settings {

  /** The values a settings dictionary holds. */
  datatype Value = Bool(b: bool) | Int(i: int) | Str(s: string) | NoneValue

  datatype Result<T> = Ok(value: T) | UnsupportedEnvironment(env: string)

  /** The numeric logging levels of the logging library. */
  const DEBUG: int := 10
  const INFO: int := 20

  const BASE_DEFAULTS: map<string, Value> := map[
    "test" := Bool(false),
    "mouse_visible" := Bool(false),
    "logging_level" := Int(INFO),
    "exp_name" := Str("FH_WordOA_PostTest"),
    "log_file" := Str("./test_log.xlsx")
  ]

  const TEST: map<string, Value> := map[
    "test" := Bool(true),
    "logging_level" := Int(DEBUG),
    "exp_name" := Str("TestExp")
  ]

  const PRODUCTION: map<string, Value> := map[
    "test" := Bool(false),
    "logging_level" := Int(INFO)
  ]

  const DEV: map<string, Value> := map[
    "env" := Str("dev"),
    "window_dimensions" := Str("full_screen"),
    "button_box" := NoneValue,
    "n_runs" := Int(1)
  ]

  /** A mutable dictionary; `Update` is `dict.update`. */
  class Dict {
    var entries: map<string, Value>

    constructor (init: map<string, Value>)
      ensures entries == init
    {
      entries := init;
    }

    /** Every key of `other` takes its value from `other`; the rest are kept. */
    method Update(other: map<string, Value>)
      modifies this
      ensures entries.Keys == old(entries).Keys + other.Keys
      ensures forall k :: k in other ==> entries[k] == other[k]
      ensures forall k :: k in old(entries) && k !in other ==> entries[k] == old(entries)[k]
    {
      entries := entries + other;
    }
  }

  /** The layer chosen by the `test` flag. */
  function ModeLayer(test: bool): map<string, Value> {
    if test then TEST else PRODUCTION
  }

  /**
   * What the dictionary holds after one call: the mode layer is applied
   * unconditionally, the DEV layer only for env "dev".
   */
  function Layered(prev: map<string, Value>, env: string, test: bool): map<string, Value> {
    var withMode := prev + ModeLayer(test);
    if env == "dev" then withMode + DEV else withMode
  }

  /**
   * `get_settings(env, test)`. The mode layer is written into `base` before
   * the environment is checked, so a rejected call still changes it.
   */
  method GetSettings(base: Dict, env: string, test: bool := false) returns (r: Result<Dict>)
    modifies base
    ensures base.entries == Layered(old(base.entries), env, test)
    ensures r.Ok? <==> env == "dev"
    ensures r.Ok? ==> r.value == base
    ensures r.UnsupportedEnvironment? ==> r.env == env
  {
    var settings := base;
    if test {
      settings.Update(TEST);
    } else {
      settings.Update(PRODUCTION);
    }
    if env == "dev" {
      settings.Update(DEV);
      r := Ok(settings);
    } else {
      r := UnsupportedEnvironment(env);
    }
  }

  /**
   * The call the stimulus module makes when it is loaded: env "production" is
   * rejected, while BASE still receives the PRODUCTION layer.
   */
  method StimulusModuleSettings(base: Dict) returns (r: Result<Dict>)
    modifies base
    ensures r == UnsupportedEnvironment("production")
    ensures base.entries == old(base.entries) + PRODUCTION
  {
    r := GetSettings(base, "production", false);
  }

  /**
   * Two calls hand back the same dictionary, so what the second call writes
   * shows through the first caller's result: after a test-mode call and a
   * production-mode call, "test" is false but the experiment name is still
   * the test one.
   */
  method SharedAcrossCalls(base: Dict) returns (first: Result<Dict>, second: Result<Dict>)
    modifies base
    ensures first.Ok? && second.Ok? && first.value == second.value == base
    ensures "test" in base.entries && "exp_name" in base.entries
    ensures first.value.entries["test"] == Bool(false)
    ensures first.value.entries["exp_name"] == Str("TestExp")
  {
    first := GetSettings(base, "dev", true);
    assert base.entries["exp_name"] == Str("TestExp");
    second := GetSettings(base, "dev", false);
    assert "test" in PRODUCTION && "exp_name" !in PRODUCTION && "exp_name" !in DEV && "test" !in DEV;
  }

  /**
   * For any environment other than "dev" (the calls `GetSettings` rejects),
   * the dictionary ends as the defaults plus the mode layer alone.
   */
  lemma NonDevWritesModeLayerOnly(env: string)
    ensures env != "dev" ==> Layered(BASE_DEFAULTS, env, false) == BASE_DEFAULTS + PRODUCTION
    ensures env != "dev" ==> Layered(BASE_DEFAULTS, env, true) == BASE_DEFAULTS + TEST
  {
  }

  /** With env "dev", every DEV key is present with its DEV value. */
  lemma DevKeysPresent(prev: map<string, Value>, test: bool)
    ensures DEV.Keys <= Layered(prev, "dev", test).Keys
    ensures forall k :: k in DEV ==> Layered(prev, "dev", test)[k] == DEV[k]
    ensures Layered(prev, "dev", test)["window_dimensions"] == Str("full_screen")
  {
  }

  /**
   * The "test" entry equals the argument, and the logging level comes from
   * TEST when testing and from PRODUCTION otherwise.
   */
  lemma TestFlagAndLoggingLevel(prev: map<string, Value>, env: string, test: bool)
    ensures Layered(prev, env, test)["test"] == Bool(test)
    ensures Layered(prev, env, test)["logging_level"] == Int(if test then DEBUG else INFO)
  {
  }

  /** Keys named by neither layer keep the value they had before the call. */
  lemma UnnamedKeysKept(prev: map<string, Value>, env: string, test: bool, k: string)
    requires k in prev && k !in ModeLayer(test) && k !in DEV
    ensures Layered(prev, env, test)[k] == prev[k]
  {
  }

  /**
   * BASE is shared between calls: after a test-mode call the experiment name
   * stays "TestExp" through a later production-mode call, because PRODUCTION
   * does not name it.
   */
  lemma ExpNamePersists(env1: string, env2: string)
    ensures Layered(BASE_DEFAULTS, env1, false)["exp_name"] == Str("FH_WordOA_PostTest")
    ensures Layered(Layered(BASE_DEFAULTS, env1, true), env2, false)["exp_name"] == Str("TestExp")
  {
  }
}

=== FILE: stimulus.dfy ===
/**
 * The trial logic of the post-test, as values: stimulus descriptors, the
 * parity-dependent key codes, scoring of word and probe responses against
 * the reference table, probe selection with its legend parser, the initial
 * trial sequence, the ordered response log, and one step of the runner as
 * a transition on (queue, log).
 */
module Stimulus {
  import opened Strings
  import Experiment

  /** One reference-table row, keyed by its noun. */
  datatype Row = Row(associate: string, mfRc: string, yoOm: string, wnLd: string, recallRespCorrect: string)

  type Table = map<string, Row>

  /** The answer key of a probe: its question and the answers behind D and K. */
  datatype ProbeDetails = ProbeDetails(q: string, d: string, k: string)

  /** Introduction, word and probe stimuli (`stim_type` 1, -1 and 0). */
  datatype Kind = Intro | Word | Probe(details: ProbeDetails)

  /** A text stimulus: its key (the word, the question or "intro"), what is shown, and how it ends. */
  datatype Descriptor = Text(wordKey: string, display: string, height: real, duration: real, keys: seq<string>, kind: Kind)

  /** What is handed to the enqueue operations: a tuple or list descriptor, or anything else. */
  datatype Candidate = Shaped(descriptor: Descriptor) | Unshaped

  datatype Error =
    | LookupMiss(noun: string)          // the noun has no reference-table row
    | KeyMissing(key: string)           // the key is not in the answer dictionary
    | EmptyLog                          // a probe answered before any word was logged
    | MalformedLegend                   // a legend without the comma or an '='
    | UnknownProbeType(probeType: string) // no probe table for the category: the run quits

  datatype Result<T> = Ok(value: T) | Err(error: Error)

  /** A cell of the log. */
  datatype Field = Str(s: string) | Flag(n: int) | Seconds(t: real)

  function StimType(k: Kind): (t: int)
    ensures t == 1 <==> k.Intro?
    ensures t < 0 <==> k.Word?
    ensures t == 0 <==> k.Probe?
  {
    match k
    case Intro() => 1
    case Word() => -1
    case Probe(_) => 0
  }

  /** How a shown stimulus completes. */
  datatype Completion = Timed | KeyGated | Immediate

  /** A non-zero duration waits it out; otherwise a non-empty key list waits for a key. */
  function CompletionOf(d: Descriptor): Completion {
    if d.duration != 0.0 then Timed else if |d.keys| > 0 then KeyGated else Immediate
  }

  /**
   * The default duration 0.0 is falsy and the default keys are d and k, so a
   * stimulus built from the defaults waits for one of those keys.
   */
  lemma DefaultsAreKeyGated(d: Descriptor)
    requires d.duration == Experiment.DefaultDuration && d.keys == Experiment.DefaultKeys
    ensures CompletionOf(d) == KeyGated && d.keys == ["d", "k"]
  {
  }

  // ---------------------------------------------------------------- response codes

  /** Participants with an odd identifier use the odd legends. */
  predicate IsOdd(participant: int) {
    participant % 2 != 0
  }

  /** The response code a key stands for; defined on "d" and "k" only. */
  function AnswerCode(isOdd: bool, key: string): Option<string> {
    if key == "d" then Some(if isOdd then "f" else "e")
    else if key == "k" then Some(if isOdd then "e" else "f")
    else None
  }

  /**
   * The two parity maps are defined exactly on {d, k}, send the two keys to
   * different codes, and are mirror images of each other.
   */
  lemma AnswerCodesMirror(key: string)
    ensures AnswerCode(true, key).Some? <==> key in {"d", "k"}
    ensures AnswerCode(false, key).Some? <==> key in {"d", "k"}
    ensures AnswerCode(true, "d") == Some("f") && AnswerCode(true, "k") == Some("e")
    ensures AnswerCode(false, "d") == AnswerCode(true, "k")
    ensures AnswerCode(false, "k") == AnswerCode(true, "d")
    ensures AnswerCode(true, "d") != AnswerCode(true, "k")
  {
  }

  /** Consecutive identifiers alternate between the two maps. */
  lemma ParityAlternates(participant: int)
    ensures IsOdd(participant + 1) == !IsOdd(participant)
    ensures AnswerCode(IsOdd(participant + 1), "d") == AnswerCode(IsOdd(participant), "k")
  {
  }

  // ---------------------------------------------------------------- the ordered log

  /** The insertion-ordered log: keys in order of first insertion, and the row of each. */
  datatype Log = Log(keys: seq<string>, rows: map<string, seq<Field>>) {
    ghost predicate WellFormed() {
      && (forall i, j :: 0 <= i < j < |keys| ==> keys[i] != keys[j])
      && (forall k :: k in rows <==> k in keys)
    }
  }

  const EmptyLogData: Log := Log([], map[])

  /** `log[key] = row`: a new key goes last, an existing key keeps its place. */
  function Put(log: Log, key: string, row: seq<Field>): (r: Log)
    ensures r.rows == log.rows[key := row]
    ensures key in log.rows ==> r.keys == log.keys
    ensures key !in log.rows ==> r.keys == log.keys + [key]
    ensures log.WellFormed() ==> r.WellFormed()
  {
    if key in log.rows then Log(log.keys, log.rows[key := row])
    else Log(log.keys + [key], log.rows[key := row])
  }

  /** The most recently inserted key, `next(reversed(log.keys()))`. */
  function Last(log: Log): (r: Option<string>)
    ensures r.Some? <==> |log.keys| > 0
    ensures r.Some? ==> r.value == log.keys[|log.keys| - 1]
  {
    if |log.keys| == 0 then None else Some(log.keys[|log.keys| - 1])
  }

  /** The rows in serialization order. */
  function Rows(log: Log): (r: seq<seq<Field>>)
    requires log.WellFormed()
    ensures |r| == |log.keys|
    ensures forall i :: 0 <= i < |r| ==> r[i] == log.rows[log.keys[i]]
  {
    seq(|log.keys|, i requires 0 <= i < |log.keys| => log.rows[log.keys[i]])
  }

  /**
   * A new key becomes the last row and the earlier rows stay as they were;
   * an existing key keeps its row position and only its own row changes.
   */
  lemma PutRows(log: Log, key: string, row: seq<Field>)
    requires log.WellFormed()
    ensures key !in log.rows ==> Last(Put(log, key, row)) == Some(key)
    ensures key !in log.rows ==> Rows(Put(log, key, row)) == Rows(log) + [row]
    ensures key in log.rows ==> Last(Put(log, key, row)) == Last(log)
    ensures key in log.rows ==> |Rows(Put(log, key, row))| == |Rows(log)|
    ensures key in log.rows ==> forall i :: 0 <= i < |log.keys| ==>
              Rows(Put(log, key, row))[i] == if log.keys[i] == key then row else Rows(log)[i]
  {
    var r := Put(log, key, row);
    if key !in log.rows {
      assert Rows(r) == Rows(log) + [row];
    }
  }

  /** The column names of the log file. */
  const Columns: seq<string> := ["NOUN", "ASSOCIATE", "MF_RC", "YO_OM", "WN_LD", "RESP_KEY", "RESP_CODED",
    "RESP_CORRECT", "KEY_RT", "PROBE_TYPE", "PROBE", "PROBE_KEY", "PROBE_CODED", "PROBE_CORRECT", "PROBE_RT"]

  /** The row written for the run-time summary: a label, thirteen blanks, the elapsed time. */
  function RuntimeRecord(elapsed: real): (r: seq<Field>)
    ensures |r| == |Columns|
    ensures r[0] == Str("Total Experiment Runtime") && r[|r| - 1] == Seconds(elapsed)
    ensures forall i :: 1 <= i < |r| - 1 ==> r[i] == Str("")
  {
    [Str("Total Experiment Runtime")] + seq(13, _ => Str("")) + [Seconds(elapsed)]
  }

  // ---------------------------------------------------------------- word responses

  /** What a word response produces: the word's log row and the category of its probe. */
  datatype WordResponse = WordResponse(record: seq<Field>, probeType: string)

  /** The two categories a probe is drawn from after a wrong answer, by coin. */
  const RandomProbeTypes: seq<string> := ["HOUSE", "FACE"]

  /**
   * Scores the key pressed for `word`. The expected code is looked up first
   * (a missing noun is an error), then the key is mapped by parity (a key
   * other than d or k is an error). A correct answer probes the word's own
   * category; a wrong one probes the category the coin picks.
   */
  function ScoreWord(table: Table, word: string, isOdd: bool, key: string, rt: real, coin: nat): (r: Result<WordResponse>)
    requires coin < 2
    ensures r.Ok? <==> word in table && key in {"d", "k"}
    ensures word !in table ==> r == Err(LookupMiss(word))
    ensures word in table && key !in {"d", "k"} ==> r == Err(KeyMissing(key))
    ensures r.Ok? ==>
      var row := table[word];
      var correct := row.recallRespCorrect == AnswerCode(isOdd, key).value;
      && |r.value.record| == 10
      && r.value.record[0] == Str(word)
      && r.value.record[1] == Str(Upper(row.associate))
      && r.value.record[2..5] == [Str(row.mfRc), Str(row.yoOm), Str(row.wnLd)]
      && r.value.record[5] == Str(key)
      && r.value.record[6] == Str(AnswerCode(isOdd, key).value)
      && r.value.record[7] == Flag(if correct then 1 else 0)
      && r.value.record[8] == Seconds(rt)
      && r.value.record[9] == Str(r.value.probeType)
      && (correct ==> r.value.probeType == Upper(row.associate))
      && (!correct ==> r.value.probeType == RandomProbeTypes[coin] && r.value.probeType in {"HOUSE", "FACE"})
  {
    if word !in table then Err(LookupMiss(word))
    else
      var row := table[word];
      match AnswerCode(isOdd, key)
      case None => Err(KeyMissing(key))
      case Some(code) =>
        var correct := row.recallRespCorrect == code;
        var probeType := if correct then Upper(row.associate) else RandomProbeTypes[coin];
        var record := [Str(word), Str(Upper(row.associate)), Str(row.mfRc), Str(row.yoOm), Str(row.wnLd),
                       Str(key), Str(code), Flag(if correct then 1 else 0), Seconds(rt), Str(probeType)];
        Ok(WordResponse(record, probeType))
  }

  // ---------------------------------------------------------------- probe responses

  /** `probe_details[key]`: the probe's answer dictionary holds q, d and k. */
  function ProbeAnswer(details: ProbeDetails, key: string): Option<string> {
    if key == "q" then Some(details.q)
    else if key == "d" then Some(details.d)
    else if key == "k" then Some(details.k)
    else None
  }

  /** The last noun's three attributes, upper-cased. */
  function Attributes(row: Row): seq<string> {
    [Upper(row.mfRc), Upper(row.yoOm), Upper(row.wnLd)]
  }

  /**
   * Scores a probe answer against the noun logged last: the five fields
   * appended to that noun's row. The answer is correct when, upper-cased, it
   * is one of the noun's three upper-cased attributes.
   */
  function ScoreProbe(table: Table, log: Log, details: ProbeDetails, key: string, rt: real): (r: Result<seq<Field>>)
    ensures Last(log).None? ==> r == Err(EmptyLog)
    ensures r.Ok? <==> Last(log).Some? && Last(log).value in table && ProbeAnswer(details, key).Some?
    ensures r.Ok? ==>
      var answer := Upper(ProbeAnswer(details, key).value);
      && |r.value| == 5
      && r.value[0] == Str(details.q)
      && r.value[1] == Str(key)
      && r.value[2] == Str(answer)
      && r.value[3] == Flag(if answer in Attributes(table[Last(log).value]) then 1 else 0)
      && r.value[4] == Seconds(rt)
  {
    match Last(log)
    case None => Err(EmptyLog)
    case Some(noun) =>
      if noun !in table then Err(LookupMiss(noun))
      else
        match ProbeAnswer(details, key)
        case None => Err(KeyMissing(key))
        case Some(a) =>
          var answer := Upper(a);
          Ok([Str(details.q), Str(key), Str(answer), Flag(if answer in Attributes(table[noun]) then 1 else 0), Seconds(rt)])
  }

  // ---------------------------------------------------------------- probe generation

  /** The text after the first '=' and the character following it, `part[part.index('='):][2:]`. */
  function AnswerAfterEquals(part: string): Result<string> {
    match IndexOf(part, '=')
    case None => Err(MalformedLegend)
    case Some(i) => Ok(SliceFrom(SliceFrom(part, i), 2))
  }

  /** Reads the D and K answers out of a legend list (its first string, split at commas). */
  function ParseLegend(question: string, legend: seq<string>): Result<ProbeDetails> {
    if |legend| == 0 then Err(MalformedLegend)
    else
      var parts := Split(legend[0], ',');
      if |parts| < 2 then Err(MalformedLegend)
      else
        match AnswerAfterEquals(parts[0])
        case Err(e) => Err(e)
        case Ok(d) =>
          match AnswerAfterEquals(parts[1])
          case Err(e) => Err(e)
          case Ok(k) => Ok(ProbeDetails(question, d, k))
  }

  /** After a prefix ending in "= ", the answer is exactly the text that follows. */
  lemma AnswerAfterPrefix(prefix: string, x: string, i: nat)
    requires IndexOf(prefix, '=') == Some(i) && i + 2 == |prefix|
    ensures AnswerAfterEquals(prefix + x) == Ok(x)
  {
    IndexOfPrefix(prefix, x, '=');
    assert (prefix + x)[i..][2..] == x;
  }

  /** A legend with comma-free answers splits into its D part and its K part. */
  lemma LegendSplits(d: string, k: string)
    requires ',' !in d && ',' !in k
    ensures Split(Experiment.Legend(d, k), ',') == ["'D' = " + d, " 'K' = " + k]
  {
    var dPart, kPart := "'D' = " + d, " 'K' = " + k;
    assert Experiment.Legend(d, k) == dPart + [','] + kPart;
    SplitAtFirstSep(dPart, kPart, ',');
    SplitWithoutSep(kPart, ',');
  }

  /** Parsing a legend written in legend form gives back its two answers. */
  lemma ParseLegendRoundTrip(question: string, d: string, k: string)
    requires ',' !in d && ',' !in k
    ensures ParseLegend(question, [Experiment.Legend(d, k)]) == Ok(ProbeDetails(question, d, k))
  {
    var dPrefix, kPrefix := "'D' = ", " 'K' = ";
    LegendSplits(d, k);
    assert dPrefix[..4] == "'D' ";
    IndexOfFirst(dPrefix, '=', 4);
    AnswerAfterPrefix(dPrefix, d, 4);
    assert kPrefix[..5] == " 'K' ";
    IndexOfFirst(kPrefix, '=', 5);
    AnswerAfterPrefix(kPrefix, k, 5);
  }

  /** The probe table for a category and parity; only HOUSE and FACE have one. */
  function ProbeTable(probeType: string, isOdd: bool): (r: Option<seq<Experiment.ProbeEntry>>)
    ensures r.Some? <==> probeType in {"HOUSE", "FACE"}
    ensures r.Some? ==> |r.value| == 3
  {
    if probeType == "HOUSE" then Some(if isOdd then Experiment.HouseListOdd else Experiment.HouseListEven)
    else if probeType == "FACE" then Some(if isOdd then Experiment.FaceListOdd else Experiment.FaceListEven)
    else None
  }

  /** The (D, K) answers behind a category's odd-parity legends. */
  function CategoryAnswers(probeType: string): seq<(string, string)>
    requires probeType in {"HOUSE", "FACE"}
  {
    if probeType == "HOUSE" then Experiment.HouseAnswers else Experiment.FaceAnswers
  }

  /**
   * The probe descriptor `get_probe` inserts: the `choice`-th entry of the
   * category's table for this parity, showing the question over its legend,
   * with the parsed answer dictionary attached.
   */
  function ProbeStimulus(probeType: string, isOdd: bool, choice: nat): Result<Descriptor>
    requires choice < 3
  {
    match ProbeTable(probeType, isOdd)
    case None => Err(UnknownProbeType(probeType))
    case Some(entries) =>
      var e := entries[choice];
      match ParseLegend(e.question, e.legend)
      case Err(err) => Err(err)
      case Ok(details) =>
        Ok(Text(e.question, e.question + "\n" + e.legend[0], Experiment.DefaultTextHeight, Experiment.DefaultDuration, Experiment.DefaultKeys, Probe(details)))
  }

  /**
   * For HOUSE and FACE every choice yields a key-gated probe (stim_type 0)
   * whose question is the table's and whose answers are the legend's: D and
   * K in odd order for odd participants, swapped for even ones. Any other
   * category has no probe.
   */
  lemma ProbeStimulusAnswers(probeType: string, isOdd: bool, choice: nat)
    requires choice < 3
    ensures ProbeStimulus(probeType, isOdd, choice).Ok? <==> probeType in {"HOUSE", "FACE"}
    ensures probeType in {"HOUSE", "FACE"} ==>
      var p := ProbeStimulus(probeType, isOdd, choice).value;
      var answers := CategoryAnswers(probeType)[choice];
      && StimType(p.kind) == 0
      && CompletionOf(p) == KeyGated
      && p.kind.details.q == p.wordKey == ProbeTable(probeType, isOdd).value[choice].question
      && p.kind.details.d == (if isOdd then answers.0 else answers.1)
      && p.kind.details.k == (if isOdd then answers.1 else answers.0)
  {
    if probeType in {"HOUSE", "FACE"} {
      Experiment.HouseLegendsOdd();
      Experiment.HouseLegendsEven();
      Experiment.FaceLegendsOdd();
      Experiment.FaceLegendsEven();
      Experiment.AnswersCommaFree();
      var e := ProbeTable(probeType, isOdd).value[choice];
      var answers := CategoryAnswers(probeType)[choice];
      if isOdd {
        ParseLegendRoundTrip(e.question, answers.0, answers.1);
      } else {
        ParseLegendRoundTrip(e.question, answers.1, answers.0);
      }
    }
  }

  /**
   * The same category and choice give both parities the same question with
   * the D and K answers exchanged.
   */
  lemma ProbeParityMirror(probeType: string, choice: nat)
    requires choice < 3 && probeType in {"HOUSE", "FACE"}
    ensures ProbeStimulus(probeType, true, choice).Ok? && ProbeStimulus(probeType, false, choice).Ok?
    ensures
      var odd := ProbeStimulus(probeType, true, choice).value.kind.details;
      var even := ProbeStimulus(probeType, false, choice).value.kind.details;
      odd.q == even.q && odd.d == even.k && odd.k == even.d
  {
    ProbeStimulusAnswers(probeType, true, choice);
    ProbeStimulusAnswers(probeType, false, choice);
    Experiment.OddEvenSameQuestions();
  }

  // ---------------------------------------------------------------- the trial sequence

  const IntroDescriptor: Descriptor :=
    Text("intro", Experiment.Intro, Experiment.IntroTextHeight, Experiment.DefaultDuration, Experiment.DefaultKeys, Kind.Intro)

  /** A word shown over the parity's category legend. */
  function WordDescriptor(word: string, isOdd: bool): Descriptor {
    Text(word, word + "\n" + (if isOdd then Experiment.NounOddKey else Experiment.NounEvenKey), Experiment.DefaultTextHeight, Experiment.DefaultDuration, Experiment.DefaultKeys, Word)
  }

  /** The queue `construct_par` builds from the shuffled nouns: the introduction, then one word each. */
  function InitialSequence(isOdd: bool, words: seq<string>): seq<Descriptor> {
    [IntroDescriptor] + seq(|words|, i requires 0 <= i < |words| => WordDescriptor(words[i], isOdd))
  }

  /** The keys of a run of descriptors. */
  function WordKeys(ds: seq<Descriptor>): (r: seq<string>)
    ensures |r| == |ds| && forall i :: 0 <= i < |ds| ==> r[i] == ds[i].wordKey
  {
    seq(|ds|, i requires 0 <= i < |ds| => ds[i].wordKey)
  }

  /**
   * The initial queue holds 1 + |words| descriptors: the introduction first
   * (stim_type 1), then each word in the shuffled order (stim_type -1), so
   * the word keys are exactly the shuffled words; every one waits for a key.
   */
  lemma InitialSequenceShape(isOdd: bool, words: seq<string>)
    ensures |InitialSequence(isOdd, words)| == 1 + |words|
    ensures StimType(InitialSequence(isOdd, words)[0].kind) == 1
    ensures forall i :: 1 <= i <= |words| ==> StimType(InitialSequence(isOdd, words)[i].kind) == -1
    ensures WordKeys(InitialSequence(isOdd, words)[1..]) == words
    ensures forall i :: 0 <= i <= |words| ==> CompletionOf(InitialSequence(isOdd, words)[i]) == KeyGated
  {
    var s := InitialSequence(isOdd, words);
    assert WordKeys(s[1..]) == words;
  }

  /**
   * When the shuffled order is a permutation of the sampled face and house
   * nouns, every sampled noun is queued exactly as often as it was sampled.
   */
  lemma InitialSequenceIsPermutation(isOdd: bool, faceWords: seq<string>, houseWords: seq<string>, shuffled: seq<string>)
    requires multiset(shuffled) == multiset(faceWords + houseWords)
    ensures multiset(WordKeys(InitialSequence(isOdd, shuffled)[1..])) == multiset(faceWords) + multiset(houseWords)
  {
    InitialSequenceShape(isOdd, shuffled);
  }

  // ---------------------------------------------------------------- finishing the log

  /** The participant id in the log file name: ids below 10 get a leading "0". */
  function PaddedUid(participant: int): string {
    if participant < 10 then "0" + IntToString(participant) else IntToString(participant)
  }

  /** Ids 0 to 99 become two digits, and reading the padded id back gives the id. */
  lemma PaddedUidRoundTrip(participant: nat)
    ensures forall i :: 0 <= i < |PaddedUid(participant)| ==> IsDigit(PaddedUid(participant)[i])
    ensures ParseDigits(PaddedUid(participant)) == participant
    ensures participant < 100 ==> |PaddedUid(participant)| == 2
    ensures participant < 10 ==> PaddedUid(participant)[0] == '0'
    ensures participant >= 10 ==> PaddedUid(participant)[0] != '0'
  {
    ParseNatToString(participant);
    if participant < 10 {
      ParseLeadingZero(NatToString(participant));
    } else if participant < 100 {
      assert |NatToString(participant / 10)| == 1;
    }
  }

  function LogPath(participant: int): string {
    Experiment.LogDir + "/" + PaddedUid(participant) + "_posttest_log.csv"
  }

  // ---------------------------------------------------------------- one step of the runner

  /** What the runner changes: the pending queue and the log. */
  datatype Run = Run(queue: seq<Descriptor>, log: Log)

  /**
   * What the outside world supplies for one iteration: whether the escape key
   * was seen, the key pressed and its latency, the random picks, and the
   * clock reading used if the queue turns out to be empty.
   */
  datatype Input = Input(escape: bool, key: string, rt: real, coin: nat, choice: nat, elapsed: real) {
    /** `randint(0, 1)` and a choice among three probes. */
    predicate Valid() {
      coin < 2 && choice < 3
    }
  }

  /** How an iteration ends: the run goes on, writes its log and quits, is escaped, or stops on an error. */
  datatype Outcome = Continue | Finished(path: string) | Escaped | Halted(error: Error)

  datatype Step = Step(run: Run, outcome: Outcome)

  /**
   * `run_event`: an introduction does nothing; a probe answer is appended to
   * the last noun's row; a word answer writes the word's row and then puts
   * a probe of the chosen category in front of the queue.
   */
  function RespondTo(st: Run, d: Descriptor, isOdd: bool, table: Table, input: Input): (r: Step)
    requires st.log.WellFormed() && input.Valid()
    ensures r.run.log.WellFormed()
  {
    match d.kind
    case Intro() => Step(st, Continue)
    case Probe(details) =>
      (match ScoreProbe(table, st.log, details, input.key, input.rt)
       case Err(e) => Step(st, Halted(e))
       case Ok(fields) =>
         var noun := Last(st.log).value;
         Step(st.(log := Put(st.log, noun, st.log.rows[noun] + fields)), Continue))
    case Word() =>
      match ScoreWord(table, d.wordKey, isOdd, input.key, input.rt, input.coin)
      case Err(e) => Step(st, Halted(e))
      case Ok(w) =>
        var logged := st.(log := Put(st.log, d.wordKey, w.record));
        match ProbeStimulus(w.probeType, isOdd, input.choice)
        case Err(e) => Step(logged, Halted(e))
        case Ok(p) => Step(logged.(queue := [p] + logged.queue), Continue)
  }

  /**
   * `playNext`: pop the front descriptor and show it, which runs the
   * response event when it waits for a key; with nothing left, append the
   * run-time row and finish with the log path.
   */
  function Next(st: Run, isOdd: bool, table: Table, participant: int, input: Input): (r: Step)
    requires st.log.WellFormed() && input.Valid()
    ensures r.run.log.WellFormed()
  {
    if |st.queue| > 0 then
      var d := st.queue[0];
      var rest := st.(queue := st.queue[1..]);
      if CompletionOf(d) == KeyGated then RespondTo(rest, d, isOdd, table, input) else Step(rest, Continue)
    else
      Step(st.(log := Put(st.log, "exp_runtime", RuntimeRecord(input.elapsed))), Finished(LogPath(participant)))
  }

  predicate AllValid(inputs: seq<Input>) {
    forall i :: 0 <= i < |inputs| ==> inputs[i].Valid()
  }

  /**
   * `playAll`: check for the escape key, then play the next stimulus, as
   * long as the run goes on and input lasts.
   */
  function RunAll(st: Run, isOdd: bool, table: Table, participant: int, inputs: seq<Input>): (r: Step)
    requires st.log.WellFormed() && AllValid(inputs)
    ensures r.run.log.WellFormed()
    decreases |inputs|
  {
    if |inputs| == 0 then Step(st, Continue)
    else if inputs[0].escape then Step(st, Escaped)
    else
      var s := Next(st, isOdd, table, participant, inputs[0]);
      if s.outcome.Continue? then RunAll(s.run, isOdd, table, participant, inputs[1..]) else s
  }

  /**
   * A word response goes on exactly when the word is in the table, the key
   * is d or k, and the probe category has a probe table: a wrong answer
   * always picks one that has, a correct one uses the word's own category.
   */
  lemma WordStepGoesOn(st: Run, d: Descriptor, isOdd: bool, table: Table, input: Input)
    requires st.log.WellFormed() && input.Valid() && d.kind.Word?
    ensures RespondTo(st, d, isOdd, table, input).outcome.Continue? <==>
      && d.wordKey in table
      && input.key in {"d", "k"}
      && (table[d.wordKey].recallRespCorrect == AnswerCode(isOdd, input.key).value ==>
            Upper(table[d.wordKey].associate) in {"HOUSE", "FACE"})
  {
    var s := ScoreWord(table, d.wordKey, isOdd, input.key, input.rt, input.coin);
    if s.Ok? {
      ProbeStimulusAnswers(s.value.probeType, isOdd, input.choice);
    }
  }

  /**
   * A word response that goes on logs a ten-field row for the word, starting
   * with the word and ending with a probe category of HOUSE or FACE (the
   * word's own category when the answer was correct), and puts a key-gated
   * probe (stim_type 0) of that category at the front of the otherwise
   * unchanged queue.
   */
  lemma WordStep(st: Run, d: Descriptor, isOdd: bool, table: Table, input: Input)
    requires st.log.WellFormed() && input.Valid() && d.kind.Word?
    requires d.wordKey in table && input.key in {"d", "k"}
    requires table[d.wordKey].recallRespCorrect == AnswerCode(isOdd, input.key).value ==>
               Upper(table[d.wordKey].associate) in {"HOUSE", "FACE"}
    ensures RespondTo(st, d, isOdd, table, input).outcome.Continue?
    ensures d.wordKey in RespondTo(st, d, isOdd, table, input).run.log.rows
    ensures RespondTo(st, d, isOdd, table, input).run.log ==
      Put(st.log, d.wordKey, ScoreWord(table, d.wordKey, isOdd, input.key, input.rt, input.coin).value.record)
    ensures d.wordKey !in st.log.rows ==> Last(RespondTo(st, d, isOdd, table, input).run.log) == Some(d.wordKey)
    ensures forall k :: k in st.log.rows && k != d.wordKey ==>
              RespondTo(st, d, isOdd, table, input).run.log.rows[k] == st.log.rows[k]
    ensures
      var r := RespondTo(st, d, isOdd, table, input);
      var row := r.run.log.rows[d.wordKey];
      && |row| == 10
      && row[0] == Str(d.wordKey)
      && row[9] in {Str("HOUSE"), Str("FACE")}
      && (row[7] == Flag(1) ==> row[9] == Str(Upper(table[d.wordKey].associate)))
    ensures
      var r := RespondTo(st, d, isOdd, table, input);
      var w := ScoreWord(table, d.wordKey, isOdd, input.key, input.rt, input.coin);
      && w.Ok?
      && r.run.log.rows[d.wordKey] == w.value.record
      && ProbeStimulus(w.value.probeType, isOdd, input.choice).Ok?
      && r.run.queue[0] == ProbeStimulus(w.value.probeType, isOdd, input.choice).value
    ensures
      var r := RespondTo(st, d, isOdd, table, input);
      && |r.run.queue| == |st.queue| + 1
      && r.run.queue[1..] == st.queue
      && r.run.queue[0].kind.Probe?
      && StimType(r.run.queue[0].kind) == 0
      && CompletionOf(r.run.queue[0]) == KeyGated
  {
    WordStepGoesOn(st, d, isOdd, table, input);
    var s := ScoreWord(table, d.wordKey, isOdd, input.key, input.rt, input.coin);
    ProbeStimulusAnswers(s.value.probeType, isOdd, input.choice);
  }

  /**
   * A probe response leaves the queue and the key order alone and, when it
   * goes on, appends five fields to the last noun's row and changes no other
   * row.
   */
  lemma ProbeStep(st: Run, d: Descriptor, isOdd: bool, table: Table, input: Input)
    requires st.log.WellFormed() && input.Valid() && d.kind.Probe?
    ensures RespondTo(st, d, isOdd, table, input).outcome.Continue? <==>
              ScoreProbe(table, st.log, d.kind.details, input.key, input.rt).Ok?
    ensures ScoreProbe(table, st.log, d.kind.details, input.key, input.rt).Err? ==>
              RespondTo(st, d, isOdd, table, input) ==
              Step(st, Halted(ScoreProbe(table, st.log, d.kind.details, input.key, input.rt).error))
    ensures
      var r := RespondTo(st, d, isOdd, table, input);
      && r.run.queue == st.queue
      && r.run.log.keys == st.log.keys
      && (r.outcome.Continue? ==>
            var noun := Last(st.log).value;
            && r.run.log.rows[noun][..|st.log.rows[noun]|] == st.log.rows[noun]
            && |r.run.log.rows[noun]| == |st.log.rows[noun]| + 5
            && ScoreProbe(table, st.log, d.kind.details, input.key, input.rt).Ok?
            && r.run.log.rows[noun][|st.log.rows[noun]|..] == ScoreProbe(table, st.log, d.kind.details, input.key, input.rt).value
            && (forall k :: k in st.log.rows && k != noun ==> r.run.log.rows[k] == st.log.rows[k]))
  {
  }

  /** An introduction's response changes neither the queue nor the log. */
  lemma IntroStep(st: Run, d: Descriptor, isOdd: bool, table: Table, input: Input)
    requires st.log.WellFormed() && input.Valid() && d.kind.Intro?
    ensures RespondTo(st, d, isOdd, table, input) == Step(st, Continue)
  {
  }

  /**
   * On a non-empty queue, playing the next stimulus removes exactly the
   * front descriptor; only a word answer that goes on adds one (its probe)
   * in front of the rest.
   */
  lemma NextPopsFront(st: Run, isOdd: bool, table: Table, participant: int, input: Input)
    requires st.log.WellFormed() && input.Valid() && |st.queue| > 0
    ensures !Next(st, isOdd, table, participant, input).outcome.Finished?
    ensures
      var r := Next(st, isOdd, table, participant, input);
      var front := st.queue[0];
      if front.kind.Word? && CompletionOf(front) == KeyGated && r.outcome.Continue?
      then |r.run.queue| == |st.queue| && r.run.queue[1..] == st.queue[1..] && r.run.queue[0].kind.Probe?
      else r.run.queue == st.queue[1..]
  {
    var d := st.queue[0];
    var rest := st.(queue := st.queue[1..]);
    if CompletionOf(d) == KeyGated && d.kind.Word? && Next(st, isOdd, table, participant, input).outcome.Continue? {
      WordStepGoesOn(rest, d, isOdd, table, input);
      WordStep(rest, d, isOdd, table, input);
    }
  }

  /**
   * With the queue empty, the run finishes: the run-time row is written
   * under "exp_runtime" (last, when new) and the log goes to the padded
   * participant's file.
   */
  lemma NextFinishes(st: Run, isOdd: bool, table: Table, participant: int, input: Input)
    requires st.log.WellFormed() && input.Valid() && |st.queue| == 0
    ensures
      var r := Next(st, isOdd, table, participant, input);
      && r.outcome == Finished(Experiment.LogDir + "/" + PaddedUid(participant) + "_posttest_log.csv")
      && r.run.queue == []
      && r.run.log.rows["exp_runtime"] == RuntimeRecord(input.elapsed)
      && ("exp_runtime" !in st.log.rows ==> Rows(r.run.log) == Rows(st.log) + [RuntimeRecord(input.elapsed)])
  {
    PutRows(st.log, "exp_runtime", RuntimeRecord(input.elapsed));
  }

  /** Escape seen at the first check ends the run with the queue and the log untouched and no file written. */
  lemma EscapeAtStart(st: Run, isOdd: bool, table: Table, participant: int, inputs: seq<Input>)
    requires st.log.WellFormed() && AllValid(inputs) && |inputs| > 0 && inputs[0].escape
    ensures RunAll(st, isOdd, table, participant, inputs) == Step(st, Escaped)
  {
  }

  /**
   * From the initial queue, an odd-numbered participant who presses a key
   * on the introduction and then answers the first word wrongly is shown,
   * next, the probe of the category the coin picked, drawn from that
   * category's odd table, with D and K answers in odd order.
   */
  lemma FirstWordWrong(words: seq<string>, table: Table, participant: int, first: Input, second: Input)
    requires IsOdd(participant) && first.Valid() && second.Valid()
    requires |words| > 0 && words[0] in table && second.key in {"d", "k"}
    requires table[words[0]].recallRespCorrect != AnswerCode(true, second.key).value
    ensures
      var s1 := Next(Run(InitialSequence(true, words), EmptyLogData), true, table, participant, first);
      s1.outcome == Continue && s1.run.queue == InitialSequence(true, words)[1..] && s1.run.log == EmptyLogData
    ensures
      var s1 := Next(Run(InitialSequence(true, words), EmptyLogData), true, table, participant, first);
      var s2 := Next(s1.run, true, table, participant, second);
      var category := RandomProbeTypes[second.coin];
      var answers := CategoryAnswers(category)[second.choice];
      && s2.outcome == Continue
      && s2.run.log.keys == [words[0]]
      && s2.run.log.rows[words[0]][7] == Flag(0)
      && s2.run.log.rows[words[0]][9] == Str(category)
      && s2.run.queue[0].kind.Probe?
      && s2.run.queue[0].wordKey == ProbeTable(category, true).value[second.choice].question
      && s2.run.queue[0].kind.details.d == answers.0
      && s2.run.queue[0].kind.details.k == answers.1
      && s2.run.queue[1..] == InitialSequence(true, words)[2..]
  {
    var start := Run(InitialSequence(true, words), EmptyLogData);
    InitialSequenceShape(true, words);
    var s1 := Next(start, true, table, participant, first);
    assert s1.run == start.(queue := start.queue[1..]);
    var word := s1.run.queue[0];
    assert word == WordDescriptor(words[0], true);
    var rest := s1.run.(queue := s1.run.queue[1..]);
    var category := RandomProbeTypes[second.coin];
    ProbeStimulusAnswers(category, true, second.choice);
    WordStepGoesOn(rest, word, true, table, second);
    WordStep(rest, word, true, table, second);
  }
}

=== FILE: strings.dfy ===
/**
 * The handful of Python `str` operations the experiment code relies on:
 * `upper`, `split(",")`, `index("=")`, open-ended slicing `s[i:]`, and the
 * decimal conversions `str(n)` / `int(s)` used for participant ids.
 */
module Strings {

  datatype Option<T> = None | Some(value: T)

  predicate IsLower(c: char) {
    'a' <= c <= 'z'
  }

  predicate IsDigit(c: char) {
    '0' <= c <= '9'
  }

  /** No ASCII lower-case letter in `s`. */
  predicate AllUpper(s: string) {
    forall i :: 0 <= i < |s| ==> !IsLower(s[i])
  }

  function UpperChar(c: char): char {
    if IsLower(c) then (c as int - 32) as char else c
  }

  /**
   * `s.upper()`, for ASCII text: every lower-case letter becomes its capital,
   * every other character stays where it is.
   */
  function Upper(s: string): (r: string)
    ensures |r| == |s| && AllUpper(r)
    ensures forall i :: 0 <= i < |s| && !IsLower(s[i]) ==> r[i] == s[i]
    ensures forall i :: 0 <= i < |s| && IsLower(s[i]) ==> r[i] as int == s[i] as int - 32
  {
    seq(|s|, i requires 0 <= i < |s| => UpperChar(s[i]))
  }

  /**
   * Python's `s.split(sep)` for a one-character separator: the pieces between
   * separators, always at least one (`"".split(",") == [""]`).
   */
  function Split(s: string, sep: char): (parts: seq<string>)
    ensures |parts| >= 1
    ensures forall i :: 0 <= i < |parts| ==> sep !in parts[i]
    decreases |s|
  {
    if |s| == 0 then [""]
    else if s[0] == sep then [""] + Split(s[1..], sep)
    else
      var rest := Split(s[1..], sep);
      [[s[0]] + rest[0]] + rest[1..]
  }

  /** `sep.join(parts)`, the inverse of `Split`. */
  function Join(parts: seq<string>, sep: char): string
    requires |parts| >= 1
  {
    if |parts| == 1 then parts[0] else parts[0] + [sep] + Join(parts[1..], sep)
  }

  /** Splitting loses nothing: joining the pieces gives the text back. */
  lemma {:induction false} JoinSplit(s: string, sep: char)
    ensures Join(Split(s, sep), sep) == s
    decreases |s|
  {
    if |s| == 0 {
    } else if s[0] == sep {
      JoinSplit(s[1..], sep);
      assert s == [sep] + s[1..];
    } else {
      JoinSplit(s[1..], sep);
      var rest := Split(s[1..], sep);
      if |rest| == 1 {
        assert s == [s[0]] + s[1..];
      } else {
        assert Join(rest, sep) == rest[0] + [sep] + Join(rest[1..], sep);
        assert s == [s[0]] + s[1..];
      }
    }
  }

  /** Text without the separator is a single piece. */
  lemma {:induction false} SplitWithoutSep(s: string, sep: char)
    requires sep !in s
    ensures Split(s, sep) == [s]
    decreases |s|
  {
    if |s| > 0 {
      SplitWithoutSep(s[1..], sep);
      assert s == [s[0]] + s[1..];
    }
  }

  /** A separator after a separator-free head cuts exactly that head off. */
  lemma {:induction false} SplitAtFirstSep(a: string, b: string, sep: char)
    requires sep !in a
    ensures Split(a + [sep] + b, sep) == [a] + Split(b, sep)
    decreases |a|
  {
    var s := a + [sep] + b;
    if |a| == 0 {
      assert s[1..] == b;
    } else {
      assert s[1..] == a[1..] + [sep] + b;
      SplitAtFirstSep(a[1..], b, sep);
      assert [a[0]] + a[1..] == a;
    }
  }

  /** `s.index(c)`: the first position of `c`, or `None` where Python raises ValueError. */
  function IndexOf(s: string, c: char): (r: Option<nat>)
    ensures r.None? <==> c !in s
    ensures r.Some? ==> r.value < |s| && s[r.value] == c && c !in s[..r.value]
  {
    if |s| == 0 then None
    else if s[0] == c then Some(0)
    else
      match IndexOf(s[1..], c)
      case None => None
      case Some(i) =>
        assert s[..i + 1] == [s[0]] + s[1..][..i];
        Some(i + 1)
  }

  /** Text after the first occurrence is irrelevant to `index`. */
  lemma IndexOfPrefix(p: string, s: string, c: char)
    requires c in p
    ensures IndexOf(p + s, c) == IndexOf(p, c)
  {
    var i := IndexOf(p, c).value;
    var j := IndexOf(p + s, c).value;
    assert (p + s)[..i] == p[..i];
    FirstOccurrenceUnique(p + s, c, i, j);
  }

  /** `index` finds the first occurrence. */
  lemma IndexOfFirst(s: string, c: char, i: nat)
    requires i < |s| && s[i] == c && c !in s[..i]
    ensures IndexOf(s, c) == Some(i)
  {
    FirstOccurrenceUnique(s, c, i, IndexOf(s, c).value);
  }

  /** There is only one first occurrence. */
  lemma FirstOccurrenceUnique(t: string, c: char, i: nat, j: nat)
    requires i < |t| && t[i] == c && c !in t[..i]
    requires j < |t| && t[j] == c && c !in t[..j]
    ensures i == j
  {
    if i < j {
      assert false;
    } else if j < i {
      assert false;
    }
  }

  /** Python's open-ended slice `s[i:]` for a non-negative start. */
  function SliceFrom(s: string, i: nat): (r: string)
    ensures i <= |s| ==> r == s[i..]
    ensures i >= |s| ==> r == ""
  {
    if i <= |s| then s[i..] else ""
  }

  function DigitChar(d: nat): (c: char)
    requires d < 10
    ensures IsDigit(c) && c as int - '0' as int == d
  {
    ('0' as int + d) as char
  }

  /** `str(n)` for a natural number. */
  function NatToString(n: nat): (s: string)
    ensures |s| >= 1
    ensures forall i :: 0 <= i < |s| ==> IsDigit(s[i])
    ensures n < 10 <==> |s| == 1
    ensures n >= 10 ==> s[0] != '0'
  {
    if n < 10 then [DigitChar(n)] else NatToString(n / 10) + [DigitChar(n % 10)]
  }

  /** `str(i)` for any integer: a minus sign before the digits of a negative one. */
  function IntToString(i: int): string {
    if i < 0 then "-" + NatToString(-i) else NatToString(i)
  }

  /** `int(s)` for a string of decimal digits; leading zeros are allowed. */
  function ParseDigits(s: string): nat
    requires forall i :: 0 <= i < |s| ==> IsDigit(s[i])
  {
    if |s| == 0 then 0
    else
      var last := s[|s| - 1];
      assert IsDigit(last);
      ParseDigits(s[..|s| - 1]) * 10 + (last as int - '0' as int)
  }

  /** `int(str(n)) == n`. */
  lemma {:induction false} ParseNatToString(n: nat)
    ensures ParseDigits(NatToString(n)) == n
  {
    if n >= 10 {
      var s := NatToString(n);
      assert s[..|s| - 1] == NatToString(n / 10);
      ParseNatToString(n / 10);
    }
  }

  /** A leading zero does not change the value `int` reads. */
  lemma {:induction false} ParseLeadingZero(s: string)
    requires forall i :: 0 <= i < |s| ==> IsDigit(s[i])
    ensures ParseDigits("0" + s) == ParseDigits(s)
  {
    if |s| > 0 {
      var t := "0" + s;
      assert t[..|t| - 1] == "0" + s[..|s| - 1];
      ParseLeadingZero(s[..|s| - 1]);
    }
  }
}
